=== FILE: README.md ===
# Controle Financeiro: a Dafny model of the data core

A Streamlit personal-finance application ("Controle Financeiro") keeps
users, spending categories, payments and monthly budgets in SQLite. This
project models its core in Dafny and proves properties of the model:

- `schema.dfy` (module `Schema`): the four tables `init_db` creates, with
  their UNIQUE keys, column defaults and AUTOINCREMENT ids. A table is a
  sequence of rows in insertion order, and a `Valid` database keeps every
  constraint SQLite enforces. `init_db` is a function on a catalog of
  existing tables.
- `categories.dfy` (module `Categories`): the category store of `repos.py`.
  It covers the default seed, the ordered listing, creation with name
  validation, and deletion that first nulls the payments' references.
  SQLite never switches foreign keys on, so referential integrity is an
  invariant (`OwnedReferences`) that the operations must keep themselves.
- `auth.py`'s credential store (module `Auth`, `auth.dfy`): account
  creation, login, the security question and password reset.
- `crypto.dfy` (module `Crypto`): bcrypt abstracted as a digest that
  verifies exactly the text it was made from. The salt is a parameter.
- `text.dfy` (module `Text`): Python's `str.strip()` and `str.lower()`,
  and SQLite's BINARY collation used by `ORDER BY name`.
- `months.dfy` (module `Months`): `MESES`, `month_label_to_int` and
  `int_to_month_label`, including Python's negative list indexing.
- `dashboard.dfy` (module `Dashboard`): the KPI arithmetic of the dashboard
  and the planning page. Amounts are exact reals and due dates are ordinal
  day numbers.
- `wrappers.dfy` and `seqs.dfy`: `Option`/`Result`, and distinctness of a list.

Every operation is a pure function from a database (and its inputs) to a
new database or an error. An exception the source raises is a `Failure`
value or a `None`.

## Model

| member | source | states |
|---|---|---|
| Text.TrimStart | repos.py:57 | the result is the longest suffix not starting with white space: everything cut off is white space |
| Text.TrimEnd | repos.py:57 | the result is the longest prefix not ending with white space: everything cut off is white space |
| Text.Strip | repos.py:57 | the stripped string has no white space at either end and is the input with only white space cut from both ends |
| Text.StripUnique | repos.py:57 | any way of writing the input as white space, a trimmed core and white space has `strip()` as its core, so `strip()` is fully determined |
| Text.StripEmptyIffAllSpace | repos.py:57-59 | `strip()` is empty exactly when the input is all white space, the case `create_category` rejects |
| Text.StripTrimmed | auth.py:27 | a string already stripped is left unchanged, so the second `strip()` of the INSERT changes nothing |
| Text.StripIdempotent | auth.py:16 | stripping twice equals stripping once |
| Text.Lower | auth.py:16 | `lower()` keeps the length, yields lower case and returns a lower-case string unchanged; `Text.LowerFacts` and `Text.IsLowerFixed` state the rest of what it means |
| Text.LowerFacts | auth.py:16 | `lower()` yields lower case, is idempotent, keeps white space in place and keeps a stripped string stripped |
| Text.IsLowerFixed | auth.py:16 | a string is in lower case exactly when `lower()` leaves it unchanged |
| Text.CollateTotal | repos.py:49 | any two names are comparable under the BINARY collation |
| Text.CollateAntisymmetric | repos.py:49 | two names that each sort no later than the other are equal |
| Text.CollateTransitive | repos.py:49 | the collation order is transitive, so `ORDER BY name` is a total order |
| Crypto.VerifyHash | auth.py:9-13 | a hash verifies the text it was made from, under any salt, and no other text |
| Schema.InsertUser | database.py:14-21 | fails with a UNIQUE violation exactly when the username is taken; otherwise appends one row under the next AUTOINCREMENT id, larger than every existing id, keeps every constraint, and leaves every other table and id sequence as it was |
| Schema.InsertCategory | database.py:24-33 | fails exactly when the owner already has that name (UNIQUE(user_id, name)); otherwise appends one row under the next id, keeping the constraints and every other table and id sequence |
| Schema.InsertPayment | database.py:35-51 | always appends one row, whose id is the advanced payment sequence; `paid` defaults to 0 and `paid_date` and `category_id` may be NULL; the constraints hold and nothing else changes |
| Schema.InsertBudget | database.py:53-65 | fails exactly when the owner has a row for that (month, year); otherwise appends one under the next id, with income and expense goal defaulting to 0, and nothing else changes |
| Schema.InitDb | database.py:9-65 | afterwards all four tables exist; an existing table keeps its rows and sequence; a missing one is created empty with its id sequence at 0, so its first id is 1; a valid database stays valid |
| Schema.InitDbIdempotent | database.py:13-22 | `init_db` is a no-op once the tables exist, so running it twice equals running it once, and on an empty file it yields empty tables |
| Schema.SchemaRules | database.py:16-62 | a second category or budget with the same key is refused, a username cannot be inserted twice, and a payment given only its required columns is open, with no paid date and no category |
| Categories.DefaultCategoriesDistinct | repos.py:13-20 | the default list has 33 entries, all different |
| Categories.InsertOrIgnore | repos.py:33-40 | after one `ON CONFLICT DO NOTHING` insert the user has the name; old rows are kept and only that pair can be new; the category id sequence advances by one whether or not a row is added, since SQLite draws the AUTOINCREMENT id before the UNIQUE check; an existing (user, name) row leaves every table as it was; nothing else changes |
| Categories.SeedNames | repos.py:32-40 | after the loop every listed name exists for the user; old rows stay as a prefix; a new row belongs to the user with a listed name; the category sequence advances by one per statement and nothing but the category table and its sequence changes; the constraints hold |
| Categories.SeedDefaultCategories | repos.py:25-43 | a missing user id changes nothing; otherwise every default name exists for the user, every existing row (same-named ones included) is unchanged, only defaults of that user are added, the category sequence advances by one per default name, and no other table or sequence changes |
| Categories.SeedPresentIsNoOp | repos.py:32-40 | re-running the loop over names the user already has adds and changes no row; only the category sequence moves on, by one per name |
| Categories.SeedNamesTwice | repos.py:32-40 | a second run of the loop over the same names leaves every table as the first left it, with the category sequence one further per name |
| Categories.SeedIdempotent | repos.py:25-43 | seeding twice leaves every table exactly as seeding once; only the category sequence differs, by one per default name for an existing user |
| Categories.OwnedPairs | repos.py:48-51 | the selection contains exactly the user's (id, name) pairs; ascending ids make them pairwise distinct |
| Categories.InsertByName | repos.py:49 | inserting into the ordered list adds exactly that pair and keeps distinct pairs distinct |
| Categories.InsertByNameCounts | repos.py:49 | insertion adds exactly one copy of the pair to the list's multiset |
| Categories.SortByName | repos.py:49 | the ordered listing has the selection's length and members, with distinctness kept |
| Categories.SortByNamePermutes | repos.py:49 | the ordered listing is a permutation of the selection: every pair occurs exactly as often as in it |
| Categories.InsertByNameSorted | repos.py:49 | inserting into a name-ordered list keeps it ordered |
| Categories.SortByNameSorted | repos.py:49 | the listing is in collation order of the name |
| Categories.ListCategories | repos.py:45-54 | `list_categories` returns exactly the user's (id, name) pairs, each once, none of another user, ordered by name |
| Categories.CreateCategory | repos.py:56-67 | a missing or white-space-only name fails with the name-required error, with no change; an existing stripped name fails on the UNIQUE key; it succeeds exactly when the stripped name is non-empty and new for the user, and then exactly one row (user, stripped name) is appended under the next id, the category sequence advances by one, and no other table or sequence changes; no other error arises |
| Categories.DropCategory | repos.py:76-79 | exactly the rows with that owner and id are removed, and nothing is removed when none match |
| Categories.DropCategoryAscending | repos.py:76-79 | deleting rows keeps the remaining AUTOINCREMENT ids ascending |
| Categories.ConsAscending | database.py:26 | a row whose id is below all ids of an ascending table keeps it ascending in front |
| Categories.NullReferences | repos.py:72-75 | the UPDATE keeps every payment in place; exactly the payments of that user pointing at the category lose the reference, all others are unchanged, and afterwards none of that user's payments points at it |
| Categories.DeleteCategory | repos.py:69-81 | exactly the user's payments pointing at the category lose the reference, no payment is deleted, none of the user's payments references the id afterwards, only that user's row with that id is removed, users, budgets and all id sequences are unchanged, and the constraints are kept |
| Categories.DeleteKeepsReferences | repos.py:72-79 | when every reference points at a category of the payment's owner, deletion keeps that so, and every reference stays live |
| Categories.CrossOwnerReferenceDangles | repos.py:72-79 | with a reference across owners (a payment of user 2 pointing at user 1's category), deletion by user 1 leaves the reference dangling, since the connection is opened without enabling foreign keys (database.py:6-7) and the FOREIGN KEY clause is not enforced |
| Categories.DeleteUnownedIsNoOp | repos.py:72-79 | under owned references, deleting an id the user does not own changes nothing |
| Categories.GrowKeepsReferences | repos.py:62-65 | adding categories without touching payments keeps references owned |
| Categories.SeedKeepsReferences | repos.py:32-40 | seeding keeps every reference owned |
| Categories.CreateKeepsReferences | repos.py:62-65 | creating a category keeps every reference owned |
| Auth.FindUser | auth.py:35-36 | the lookup finds nothing exactly when no row has that username; otherwise a row with that name, the only one when names are unique |
| Auth.SetPasswordHash | auth.py:68 | the UPDATE replaces the password hash of the rows with that id and leaves every other row unchanged |
| Auth.FindUserAfterUpdate | auth.py:57-68 | after the update the lookup finds the same row, with the new hash when it is the updated one |
| Auth.CreateUser | auth.py:15-30 | a password under 4 characters is refused; otherwise the insert fails exactly when the stripped, lower-cased name is taken; on success the new row carries that name under the next user id, a hash verifying the password, the stripped question and a hash verifying the stripped answer, and nothing but the users table and its id sequence changes; the constraints and lower-case names are kept |
| Auth.AppendKeepsLowercase | auth.py:24-28 | appending a row with a lower-case name keeps all stored names in lower case |
| Auth.NormalisedName | auth.py:16-27 | the stored name is in lower case and the second strip leaves it unchanged |
| Auth.Authenticate | auth.py:32-41 | a returned id belongs to a row with the stripped username whose hash verifies the password; with unique names the result is None exactly when no such row verifies |
| Auth.GetSecurityQuestion | auth.py:43-49 | None exactly when no row has the stripped username; otherwise that row's question |
| Auth.ResetPassword | auth.py:51-71 | a new password under 4 characters is refused before any lookup, and any other returns normally with a boolean; an unknown user or a failing stripped answer returns False with no change; with unique names, True exactly when the user exists and the answer verifies, in which case only that user's password hash is replaced, by one verifying the new password, and no other table or id sequence changes |
| Auth.ReplaceHash | auth.py:68 | only the rows with that id change, and only in their password hash, which verifies the new password; no other table or id sequence changes; the constraints hold |
| Auth.SetPasswordHashValid | auth.py:68 | changing a password hash keeps every constraint |
| Auth.ResetKeepsValid | auth.py:51-71 | a reset keeps every table constraint |
| Auth.ResetThenAuthenticate | auth.py:68-71 | after a successful reset, login under the same name with the new password returns that user's id, and an old password that differs no longer works |
| Auth.ReplacedHashFound | auth.py:57-68 | after the hash of the found row is replaced, the lookup finds that row with the new hash |
| Auth.CreateThenAuthenticate | auth.py:15-41 | after a successful sign-up, login with the stripped, lower-cased name and the same password succeeds, and the security question is the stripped one given |
| Auth.FindAppended | auth.py:35 | a name absent from the table is found in the appended row |
| Auth.AppendedRowFound | auth.py:32-49 | a row appended under a new, stripped name is what login (with a verifying password) and the security-question lookup find under that name |
| Auth.LookupNeedsLowercase | auth.py:35-57 | with stored names in lower case, a stripped name with an upper-case letter finds no account: login, the security question and reset all fail as for an unknown user |
| Auth.MixedCaseAccount | auth.py:16-35 | an account created under a name with an upper-case letter can log in with the lower-cased name, but not with the name as typed |
| Months.MesesDistinct | app.py:29-32 | twelve labels, all different |
| Months.IndexOf | app.py:35 | `list.index` finds nothing exactly when the value is absent; otherwise the first position holding it |
| Months.MonthLabelToInt | app.py:34-35 | defined exactly for the labels of `MESES`; the result is in 1..12 and names that label |
| Months.IntToMonthLabel | app.py:37-38 | defined exactly for -11..12; 1..12 give the matching label, and -11..0 give the label twelve months later |
| Months.LabelRoundTrip | app.py:34-38 | label to number and back returns the label |
| Months.IntRoundTrip | app.py:29-38 | number in 1..12 to label and back returns the number, because the labels are distinct |
| Months.LabelsInjective | app.py:29-38 | two numbers in 1..12 give the same label only when equal |
| Months.NonPositiveWraps | app.py:37-38 | a number in -11..0 gives the label of the number twelve above, and the round trip lands there, not on the number |
| Months.ZeroIsDecember | app.py:37-38 | 0 gives "Dezembro"; 13 and -12 give none |
| Dashboard.Total | app.py:135 | with no negative amounts the month total is non-negative, and all-zero amounts total 0 |
| Dashboard.TotalAppend | app.py:135 | the total of two lists is the sum of their totals |
| Dashboard.PaidRows | app.py:136 | the selection holds exactly the rows with `Pago == 1` |
| Dashboard.OpenRows | app.py:137 | the open rows are exactly those whose `Pago` is not 1 |
| Dashboard.OverdueRows | app.py:142-148 | the selection holds exactly the rows with `Pago == 0` due strictly before today |
| Dashboard.PaidRowsCounts | app.py:136 | the paid selection keeps every paid row exactly as often as the frame holds it, and no other row |
| Dashboard.OpenRowsCounts | app.py:137 | the open selection keeps every row whose `Pago` is not 1 exactly as often as the frame holds it, and no other row |
| Dashboard.OverdueRowsCounts | app.py:142-148 | the overdue selection keeps every overdue row exactly as often as the frame holds it, and no other row |
| Dashboard.DashboardKpis | app.py:134-153 | the total is the sum of all rows, paid the sum of the paid rows, open the sum of the rows not paid, overdue the sum of the overdue rows, and the balance is income minus total |
| Dashboard.KpiBounds | app.py:135-148 | paid plus open equals the total; with no negative amounts, overdue lies between 0 and open, and paid between 0 and the total |
| Dashboard.PaidOpenPartition | app.py:135-137 | the paid and open rows split the month, so their totals add to the month total |
| Dashboard.OverdueWithinOpen | app.py:140-148 | with no negative amounts the overdue total is between 0 and the open total |
| Dashboard.OverdueMonotone | app.py:147 | with no negative amounts a later today never lowers the overdue total |
| Dashboard.NothingDueNothingOverdue | app.py:147-148 | when no row is due before today, nothing is overdue |
| Dashboard.OddPaidIsOpenNotOverdue | app.py:136-147 | a row with `Pago` neither 0 nor 1 counts as open but is never overdue |
| Dashboard.RemainingGoal | app.py:260 | a zero goal leaves 0; any other goal leaves goal minus spent |
| Dashboard.Meter | app.py:267-270 | progress exists exactly for a positive goal; the percentage is the spending as a share of the goal times 100, whatever the spending; the bar is spent/goal up to the goal and 1 from the goal on, so it never exceeds 1, is non-negative for non-negative spending and is full exactly when nothing of the goal remains |
| Dashboard.FractionReachesOne | app.py:268-269 | for a positive goal the spent fraction reaches 1 exactly when spending reaches the goal, is non-negative for non-negative spending, and times the goal gives back the spending |
| Dashboard.Planning | app.py:257-269 | spent is the month total, leftover plus spent is the income, and the remaining goal and progress follow the rules above |
| Dashboard.LeftoverIsBalance | app.py:257-259 | the planning page's spent and leftover equal the dashboard's total and balance for the same rows and income |
| Dashboard.MeterMatchesRemaining | app.py:260-269 | for spending within a positive goal, the bar's share of the goal plus the remaining goal is the goal |

## Left out

- The payment and budget operations of `repos.py` (repos.py:86-108): `add_payment`, `list_payments`, `mark_paid`, `delete_payment`, `mark_credit_invoice_paid`, `unmark_credit_invoice_paid`, `get_budget` and `upsert_budget` are stubs that always raise `NotImplementedError`. No installment, invoice or settlement logic exists to model. The dashboard arithmetic therefore takes the month's rows, income and goal as parameters rather than reading them through these stubs.
- The elided condition of `create_user` (auth.py:17): the line is `...`, so the condition under which it raises "Usuário e senha são obrigatórios" is unknown and that check is not modelled. Line 27 also uses `security_question` and `security_answer`, which its parameters do not bind. The model reads them as the `question` and `answer` parameters.
- bcrypt internals (auth.py:9-13): the salt is random and the hash is one-way. The model takes the salt as a parameter and verifies by exact comparison. bcrypt's 72-byte truncation of long passwords is not modelled.
- `created_at` timestamps (`_now`, repos.py:7-8, auth.py:6-7), connections, commits and closes (database.py:6-7): these are clock and I/O.
- `lower()` outside ASCII and Latin-1: `Text.LowerChar` maps A–Z and U+00C0..U+00DE except U+00D7. The rest of Unicode's case mapping (for example Greek, Cyrillic, or characters whose lower case is longer) is not modelled.
- Currency formatting through float format specs and separator swapping (app.py:159-165, 263-265), and the percentage caption format: this is presentation. Floats are exact reals here, so rounding is not modelled.
- ISO date parsing in `_is_overdue` (app.py:143-146): a due date is an abstract day number, and "before today" is integer order. `date.today()` is a parameter.
- The Streamlit UI, session state, CSS and charts (app.py:13-26, 41-128, 155-320 apart from the arithmetic lines). The model assumes `init_db` (app.py:14) ran before any other operation.
- export_utils.py (spreadsheet and PDF rendering) is not part of this model.

=== FILE: auth.dfy ===
/** The credential store of auth.py over the `users` table: account
    creation, login, the security-question lookup and password reset.
    Every lookup matches the username after `strip()` only, while account
    creation stores it stripped and lower-cased. */
module Auth {
  import opened Wrappers
  import opened Text
  import opened Crypto
  import opened Schema

  /** The shortest password `create_user` and `reset_password` accept. */
  const MinPasswordLength := 4

  /** `SELECT ... FROM users WHERE username = ?` followed by `fetchone()`:
      the first row with exactly that username. */
  function FindUser(users: seq<User>, username: string): (r: Option<User>)
    ensures r.None? <==> !HasUsername(users, username)
    ensures r.Some? ==> r.value in users && r.value.username == username
    ensures r.Some? && UsernamesUnique(users) ==> forall u :: u in users && u.username == username ==> u == r.value
  {
    if users == [] then None
    else if users[0].username == username then Some(users[0])
    else
      assert forall u :: u in users <==> u == users[0] || u in users[1..];
      FindUser(users[1..], username)
  }

  /** `UPDATE users SET password_hash = ? WHERE id = ?`. */
  function SetPasswordHash(users: seq<User>, id: int, hash: Digest): (r: seq<User>)
    ensures |r| == |users|
    ensures forall i :: 0 <= i < |users| ==>
              r[i] == if users[i].id == id then users[i].(passwordHash := hash) else users[i]
  {
    if users == [] then []
    else [if users[0].id == id then users[0].(passwordHash := hash) else users[0]]
         + SetPasswordHash(users[1..], id, hash)
  }

  /** After the update, the lookup finds the same row as before, carrying
      the new hash when it is the updated one. */
  lemma {:induction false} FindUserAfterUpdate(users: seq<User>, username: string, id: int, hash: Digest)
    ensures var before := FindUser(users, username);
            var after := FindUser(SetPasswordHash(users, id, hash), username);
            && (before.None? <==> after.None?)
            && (before.Some? ==> after.value == if before.value.id == id then before.value.(passwordHash := hash) else before.value)
  {
    if users != [] {
      var rest := SetPasswordHash(users[1..], id, hash);
      assert SetPasswordHash(users, id, hash)[1..] == rest;
      FindUserAfterUpdate(users[1..], username, id, hash);
    }
  }

  /** Every stored username is in lower case, as `create_user` leaves it. */
  predicate LowercaseUsernames(db: Db)
  {
    forall i :: 0 <= i < |db.users| ==> IsLower(db.users[i].username)
  }

  // ---------------------------------------------------------------------
  // create_user

  /** `create_user(username, password, question, answer)`: the username is
      stripped and lower-cased, a password under four characters is
      refused, and the row is inserted under the UNIQUE username with the
      password and the stripped answer hashed, the question stored stripped. */
  function CreateUser(db: Db, username: string, password: string, question: string, answer: string,
                      passwordSalt: string, answerSalt: string): (r: Result<Db, Error>)
    ensures |password| < MinPasswordLength ==> r == Failure(PasswordTooShort)
    ensures |password| >= MinPasswordLength ==> (r.Failure? <==> HasUsername(db.users, Lower(Strip(username))))
    ensures r.Failure? && |password| >= MinPasswordLength ==> r.error == UniqueViolation(Users)
    ensures r.Success? ==> |r.value.users| == |db.users| + 1 && r.value.users[..|db.users|] == db.users
    ensures r.Success? ==> var u := r.value.users[|db.users|];
              && u.id == r.value.userSeq
              && u.username == Lower(Strip(username))
              && VerifyText(password, u.passwordHash)
              && u.securityQuestion == Strip(question)
              && VerifyText(Strip(answer), u.securityAnswerHash)
    ensures r.Success? ==> r.value.categories == db.categories && r.value.payments == db.payments && r.value.budgets == db.budgets
    ensures r.Success? ==> r.value == db.(users := r.value.users, userSeq := db.userSeq + 1)
    ensures r.Success? && Valid(db) ==> Valid(r.value)
    ensures r.Success? && LowercaseUsernames(db) ==> LowercaseUsernames(r.value)
  {
    var name := Lower(Strip(username));
    if |password| < MinPasswordLength then
      Failure(PasswordTooShort)
    else
      NormalisedName(username);
      var r := InsertUser(db, Strip(name), HashText(password, passwordSalt),
                          Strip(question), HashText(Strip(answer), answerSalt));
      if r.Success? then AppendKeepsLowercase(db, r.value, name); r else r
  }

  lemma AppendKeepsLowercase(db: Db, db': Db, name: string)
    requires IsLower(name)
    requires |db'.users| == |db.users| + 1 && db'.users[..|db.users|] == db.users
    requires db'.users[|db.users|].username == name
    ensures LowercaseUsernames(db) ==> LowercaseUsernames(db')
  {
    if LowercaseUsernames(db) {
      forall i | 0 <= i < |db'.users| ensures IsLower(db'.users[i].username) {
        if i < |db.users| { assert db'.users[i] == db.users[i]; }
      }
    }
  }

  /** The name `create_user` stores: stripping it once more, as the INSERT
      does, changes nothing, and it is in lower case. */
  lemma NormalisedName(username: string)
    ensures Strip(Lower(Strip(username))) == Lower(Strip(username))
    ensures IsLower(Lower(Strip(username)))
  {
    LowerFacts(Strip(username));
    StripTrimmed(Lower(Strip(username)));
  }

  // ---------------------------------------------------------------------
  // authenticate / get_security_question

  /** `authenticate(username, password)`: the id of the user whose name is
      the stripped input, when the password verifies; `None` otherwise. */
  function Authenticate(db: Db, username: string, password: string): (r: Option<int>)
    ensures r.Some? ==> exists u :: u in db.users && u.username == Strip(username)
                                   && VerifyText(password, u.passwordHash) && u.id == r.value
    ensures UsernamesUnique(db.users) ==>
              (r.None? <==> forall u :: u in db.users && u.username == Strip(username) ==> !VerifyText(password, u.passwordHash))
  {
    match FindUser(db.users, Strip(username))
    case Some(u) => if VerifyText(password, u.passwordHash) then Some(u.id) else None
    case None => None
  }

  /** `get_security_question(username)`: the stored question of the user
      with the stripped name, or `None` when there is none. */
  function GetSecurityQuestion(db: Db, username: string): (r: Option<string>)
    ensures r.None? <==> !HasUsername(db.users, Strip(username))
    ensures r.Some? ==> exists u :: u in db.users && u.username == Strip(username) && u.securityQuestion == r.value
  {
    match FindUser(db.users, Strip(username))
    case Some(u) => Some(u.securityQuestion)
    case None => None
  }

  // ---------------------------------------------------------------------
  // reset_password

  /** What `reset_password` returns, with the database it leaves behind. */
  datatype Reset = Reset(ok: bool, db: Db)

  /** `reset_password(username, answer, new_password)`: a short new password
      raises before anything is looked up; an unknown user or a wrong
      stripped answer returns `False` and changes nothing; otherwise the
      user's password hash alone is replaced and `True` is returned. */
  function ResetPassword(db: Db, username: string, answer: string, newPassword: string, salt: string): (r: Result<Reset, Error>)
    ensures |newPassword| < MinPasswordLength <==> r == Failure(PasswordTooShort)
    ensures |newPassword| >= MinPasswordLength ==> r.Success?
    ensures r.Success? && !HasUsername(db.users, Strip(username)) ==> r.value == Reset(false, db)
    ensures r.Success? && !r.value.ok ==> r.value.db == db
    ensures r.Success? && UsernamesUnique(db.users) ==>
              (r.value.ok <==> exists u :: u in db.users && u.username == Strip(username)
                                          && VerifyText(Strip(answer), u.securityAnswerHash))
    ensures r.Success? && r.value.ok ==>
              && FindUser(db.users, Strip(username)).Some?
              && var u := FindUser(db.users, Strip(username)).value;
              && VerifyText(Strip(answer), u.securityAnswerHash)
              && |r.value.db.users| == |db.users|
              && (forall i :: 0 <= i < |db.users| ==>
                    if db.users[i].id == u.id
                    then r.value.db.users[i] == db.users[i].(passwordHash := r.value.db.users[i].passwordHash)
                         && VerifyText(newPassword, r.value.db.users[i].passwordHash)
                    else r.value.db.users[i] == db.users[i])
    ensures r.Success? ==> r.value.db.categories == db.categories && r.value.db.payments == db.payments
                           && r.value.db.budgets == db.budgets
    ensures r.Success? ==> r.value.db == db.(users := r.value.db.users)
  {
    if |newPassword| < MinPasswordLength then
      Failure(PasswordTooShort)
    else
      match FindUser(db.users, Strip(username))
      case None => Success(Reset(false, db))
      case Some(u) =>
        if !VerifyText(Strip(answer), u.securityAnswerHash) then
          Success(Reset(false, db))
        else
          Success(Reset(true, ReplaceHash(db, u.id, newPassword, salt)))
  }

  /** A reset keeps every table constraint. */
  lemma ResetKeepsValid(db: Db, username: string, answer: string, newPassword: string, salt: string)
    requires Valid(db)
    ensures ResetPassword(db, username, answer, newPassword, salt).Success? ==>
              Valid(ResetPassword(db, username, answer, newPassword, salt).value.db)
  {
    var r := ResetPassword(db, username, answer, newPassword, salt);
    var u := FindUser(db.users, Strip(username));
    if |newPassword| >= MinPasswordLength && u.Some? && VerifyText(Strip(answer), u.value.securityAnswerHash) {
      var db' := ReplaceHash(db, u.value.id, newPassword, salt);
      assert Valid(db');
      assert r == Success(Reset(true, db'));
    } else if r.Success? {
      assert r.value.db == db;
    }
  }

  /** The successful branch of `reset_password`: the row with that id gets
      a hash of the new password; nothing else changes. */
  function ReplaceHash(db: Db, id: int, newPassword: string, salt: string): (r: Db)
    ensures |r.users| == |db.users|
    ensures forall i :: 0 <= i < |db.users| ==>
              if db.users[i].id == id
              then r.users[i] == db.users[i].(passwordHash := r.users[i].passwordHash)
                   && VerifyText(newPassword, r.users[i].passwordHash)
              else r.users[i] == db.users[i]
    ensures r.categories == db.categories && r.payments == db.payments && r.budgets == db.budgets
    ensures r == db.(users := r.users)
    ensures Valid(db) ==> Valid(r)
  {
    var hash := HashText(newPassword, salt);
    SetPasswordHashValid(db, id, hash);
    db.(users := SetPasswordHash(db.users, id, hash))
  }

  /** Changing a password hash touches no key, so the tables stay valid. */
  lemma SetPasswordHashValid(db: Db, id: int, hash: Digest)
    ensures Valid(db) ==> Valid(db.(users := SetPasswordHash(db.users, id, hash)))
  {
  }

  // ---------------------------------------------------------------------
  // Properties across operations

  /** A successful reset lets the user in with the new password under the
      same name, and the old password stops working unless it was reused. */
  lemma ResetThenAuthenticate(db: Db, username: string, answer: string, newPassword: string, oldPassword: string, salt: string)
    requires ResetPassword(db, username, answer, newPassword, salt).Success?
    requires ResetPassword(db, username, answer, newPassword, salt).value.ok
    ensures var db' := ResetPassword(db, username, answer, newPassword, salt).value.db;
            && Authenticate(db', username, newPassword).Some?
            && Authenticate(db', username, newPassword) == Some(FindUser(db.users, Strip(username)).value.id)
            && (oldPassword != newPassword ==> Authenticate(db', username, oldPassword).None?)
  {
    var u := FindUser(db.users, Strip(username)).value;
    var db' := ReplaceHash(db, u.id, newPassword, salt);
    assert ResetPassword(db, username, answer, newPassword, salt) == Success(Reset(true, db'));
    ReplacedHashFound(db, Strip(username), u, newPassword, salt);
    var found := FindUser(db'.users, Strip(username));
    assert found == Some(u.(passwordHash := HashText(newPassword, salt)));
    assert Authenticate(db', username, newPassword) == Some(u.id);
    assert oldPassword != newPassword ==> Authenticate(db', username, oldPassword) == None;
  }

  /** After the hash of the row the lookup found is replaced, the lookup
      finds that row again, now with a hash of the new password. */
  lemma ReplacedHashFound(db: Db, name: string, u: User, newPassword: string, salt: string)
    requires FindUser(db.users, name) == Some(u)
    ensures FindUser(ReplaceHash(db, u.id, newPassword, salt).users, name) == Some(u.(passwordHash := HashText(newPassword, salt)))
  {
    var hash := HashText(newPassword, salt);
    FindUserAfterUpdate(db.users, name, u.id, hash);
  }

  /** An account created with any input is found under its lower-cased,
      stripped name: authentication with the same password succeeds. */
  lemma CreateThenAuthenticate(db: Db, username: string, password: string, question: string, answer: string, s1: string, s2: string)
    requires CreateUser(db, username, password, question, answer, s1, s2).Success?
    ensures var db' := CreateUser(db, username, password, question, answer, s1, s2).value;
            && Authenticate(db', Lower(Strip(username)), password).Some?
            && GetSecurityQuestion(db', Lower(Strip(username))) == Some(Strip(question))
  {
    var db' := CreateUser(db, username, password, question, answer, s1, s2).value;
    var name := Lower(Strip(username));
    var u := db'.users[|db.users|];
    NormalisedName(username);
    assert db'.users == db.users + [u];
    AppendedRowFound(db, db', u, name, password);
  }

  /** A row appended under a new, already stripped name is what login and
      the security-question lookup find under that name. */
  lemma AppendedRowFound(db: Db, db': Db, u: User, name: string, password: string)
    requires db'.users == db.users + [u]
    requires u.username == name && Strip(name) == name
    requires !HasUsername(db.users, name)
    requires VerifyText(password, u.passwordHash)
    ensures Authenticate(db', name, password) == Some(u.id)
    ensures GetSecurityQuestion(db', name) == Some(u.securityQuestion)
  {
    FindAppended(db.users, u, name);
  }

  lemma {:induction false} FindAppended(users: seq<User>, u: User, name: string)
    requires !HasUsername(users, name) && u.username == name
    ensures FindUser(users + [u], name) == Some(u)
  {
    if users != [] {
      assert (users + [u])[1..] == users[1..] + [u];
      assert users[0] in users;
      FindAppended(users[1..], u, name);
    } else {
      assert users + [u] == [u];
    }
  }

  /** The normalisation asymmetry: accounts are stored lower-cased but
      looked up only stripped, so a name whose stripped form has an upper
      -case letter finds no account: login, the security question and the
      reset all fail as if the user did not exist. */
  lemma LookupNeedsLowercase(db: Db, username: string, password: string, answer: string, newPassword: string, salt: string)
    requires LowercaseUsernames(db)
    requires !IsLower(Strip(username))
    ensures Authenticate(db, username, password) == None
    ensures GetSecurityQuestion(db, username) == None
    ensures |newPassword| >= MinPasswordLength ==> ResetPassword(db, username, answer, newPassword, salt) == Success(Reset(false, db))
  {
    assert !HasUsername(db.users, Strip(username));
  }

  /** The asymmetry end to end: an account created under a name with an
      upper-case letter ("Ana") is found under its lower-cased form ("ana")
      and never under the name as typed at sign-up. */
  lemma MixedCaseAccount(db: Db, username: string, password: string, question: string, answer: string, s1: string, s2: string)
    requires LowercaseUsernames(db)
    requires !IsLower(Strip(username))
    requires CreateUser(db, username, password, question, answer, s1, s2).Success?
    ensures var db' := CreateUser(db, username, password, question, answer, s1, s2).value;
            && Authenticate(db', Lower(Strip(username)), password).Some?
            && Authenticate(db', username, password).None?
            && GetSecurityQuestion(db', username).None?
  {
    var db' := CreateUser(db, username, password, question, answer, s1, s2).value;
    CreateThenAuthenticate(db, username, password, question, answer, s1, s2);
    LookupNeedsLowercase(db', username, password, answer, password, s1);
  }
}

=== FILE: categories.dfy ===
/** The category store of repos.py: the default seed, listing, creation and
    deletion of a user's categories, over the tables of `Schema`. */
module Categories {
  import opened Wrappers
  import opened Text
  import opened Schema
  import opened Seqs

  /** `DEFAULT_CATEGORIES`, in the list's order. */
  const DefaultCategories: seq<string> := [
    "Aluguel", "Condomínio", "Água", "Luz", "Plano celular", "Internet",
    "Supermercado", "Restaurante", "Delivery / iFood", "Refeição trabalho",
    "TV / Streaming", "Transporte", "Cartão de crédito", "Contas fixas", "Lazer",
    "Saúde", "Educação", "Poupança", "Roupas", "Calçados", "Cosméticos", "Farmácia",
    "Academia", "Barbeiro / Salão", "Cinema", "Viagem", "Passeios", "Jogos",
    "Bares / festas", "Faculdade", "Móveis", "Outros", "Imprevistos"
  ]

  /** The seed list has 33 entries and no name twice. */
  lemma DefaultCategoriesDistinct()
    ensures |DefaultCategories| == 33
    ensures Distinct(DefaultCategories)
  {
  }

  // ---------------------------------------------------------------------
  // seed_default_categories

  /** One `INSERT ... ON CONFLICT(user_id, name) DO NOTHING`. SQLite draws
      the AUTOINCREMENT rowid before it checks the UNIQUE key, and DO NOTHING
      ends the statement normally, so an ignored insert still uses up an id:
      the category sequence advances by one either way. */
  function InsertOrIgnore(db: Db, userId: int, name: string): (r: Db)
    ensures HasCategory(r.categories, userId, name)
    ensures HasCategory(db.categories, userId, name) ==> r == db.(categorySeq := db.categorySeq + 1)
    ensures r == db.(categories := r.categories, categorySeq := db.categorySeq + 1)
    ensures |db.categories| <= |r.categories| && r.categories[..|db.categories|] == db.categories
    ensures forall c :: c in r.categories ==> c in db.categories || (c.userId == userId && c.name == name)
    ensures r.users == db.users && r.payments == db.payments && r.budgets == db.budgets
    ensures Valid(db) ==> Valid(r)
  {
    match InsertCategory(db, userId, name)
    case Success(d) =>
      assert d.categories[|d.categories| - 1] in d.categories;
      assert d.categories[..|db.categories|] == db.categories;
      d
    case Failure(_) => db.(categorySeq := db.categorySeq + 1)
  }

  /** The seed loop over `names`: one statement, and so one id, per name. */
  function SeedNames(db: Db, userId: int, names: seq<string>): (r: Db)
    ensures r == db.(categories := r.categories, categorySeq := db.categorySeq + |names|)
    ensures forall n :: n in names ==> HasCategory(r.categories, userId, n)
    ensures |db.categories| <= |r.categories| && r.categories[..|db.categories|] == db.categories
    ensures forall c :: c in r.categories ==> c in db.categories || (c.userId == userId && c.name in names)
    ensures r.users == db.users && r.payments == db.payments && r.budgets == db.budgets
    ensures Valid(db) ==> Valid(r)
    decreases |names|
  {
    if names == [] then db
    else
      var d := InsertOrIgnore(db, userId, names[0]);
      var r := SeedNames(d, userId, names[1..]);
      assert r.categories[..|db.categories|] == d.categories[..|db.categories|];
      assert HasCategory(r.categories, userId, names[0]) by {
        var c :| c in d.categories && c.userId == userId && c.name == names[0];
        var k :| 0 <= k < |d.categories| && d.categories[k] == c;
        assert r.categories[k] == c;
      }
      r
  }

  /** `seed_default_categories(user_id)`: nothing at all for a missing
      user; otherwise every default name the user lacks is added, and every
      row already there, same-named ones included, stays as it was. */
  function SeedDefaultCategories(db: Db, userId: Option<int>): (r: Db)
    ensures userId.None? ==> r == db
    ensures userId.Some? ==> r == db.(categories := r.categories, categorySeq := db.categorySeq + |DefaultCategories|)
    ensures userId.Some? ==> forall n :: n in DefaultCategories ==> HasCategory(r.categories, userId.value, n)
    ensures |db.categories| <= |r.categories| && r.categories[..|db.categories|] == db.categories
    ensures forall c :: c in r.categories ==> c in db.categories || (userId == Some(c.userId) && c.name in DefaultCategories)
    ensures r.users == db.users && r.payments == db.payments && r.budgets == db.budgets
    ensures Valid(db) ==> Valid(r)
  {
    if userId.None? then db else SeedNames(db, userId.value, DefaultCategories)
  }

  /** Re-running the seed loop over names the user already has inserts
      nothing: every statement hits the UNIQUE key and does nothing but use
      up its id. */
  lemma {:induction false} SeedPresentIsNoOp(db: Db, userId: int, names: seq<string>)
    requires forall n :: n in names ==> HasCategory(db.categories, userId, n)
    ensures SeedNames(db, userId, names) == db.(categorySeq := db.categorySeq + |names|)
    decreases |names|
  {
    if names != [] {
      var d := InsertOrIgnore(db, userId, names[0]);
      assert d == db.(categorySeq := db.categorySeq + 1);
      assert d.categories == db.categories;
      SeedPresentIsNoOp(d, userId, names[1..]);
    }
  }

  /** A second run of the loop over the same names adds no row: it only
      moves the category sequence on by one id per name. */
  lemma SeedNamesTwice(db: Db, userId: int, names: seq<string>)
    ensures var once := SeedNames(db, userId, names);
            SeedNames(once, userId, names) == once.(categorySeq := once.categorySeq + |names|)
  {
    SeedPresentIsNoOp(SeedNames(db, userId, names), userId, names);
  }

  /** Seeding twice leaves every table exactly as seeding once; only the
      category sequence moves on, by one id per default name. */
  lemma SeedIdempotent(db: Db, userId: Option<int>)
    ensures var once := SeedDefaultCategories(db, userId);
            SeedDefaultCategories(once, userId)
              == once.(categorySeq := once.categorySeq + if userId.Some? then |DefaultCategories| else 0)
  {
    if userId.Some? {
      var once := SeedNames(db, userId.value, DefaultCategories);
      assert SeedDefaultCategories(db, userId) == once;
      assert SeedDefaultCategories(once, userId) == SeedNames(once, userId.value, DefaultCategories);
      SeedNamesTwice(db, userId.value, DefaultCategories);
    }
  }

  // ---------------------------------------------------------------------
  // list_categories

  /** The `(id, name)` pairs of `userId`'s rows, in table order. */
  function OwnedPairs(cats: seq<Category>, userId: int): (r: seq<(int, string)>)
    ensures forall p :: p in r <==> exists c :: c in cats && c.userId == userId && p == (c.id, c.name)
    ensures IdsAscending(cats) ==> Distinct(r)
  {
    if cats == [] then []
    else
      var rest := OwnedPairs(cats[1..], userId);
      assert forall c :: c in cats <==> c == cats[0] || c in cats[1..];
      if cats[0].userId == userId then
        assert IdsAscending(cats) ==> forall p :: p in rest ==> cats[0].id < p.0 by {
          if IdsAscending(cats) {
            forall p | p in rest ensures cats[0].id < p.0 {
              var c :| c in cats[1..] && c.userId == userId && p == (c.id, c.name);
              var k :| 0 <= k < |cats[1..]| && cats[1..][k] == c;
              assert cats[k + 1] == c;
            }
          }
        }
        [(cats[0].id, cats[0].name)] + rest
      else
        rest
  }

  predicate IdsAscending(cats: seq<Category>)
  {
    forall i, j :: 0 <= i < j < |cats| ==> cats[i].id < cats[j].id
  }

  /** `ORDER BY name`. */
  predicate SortedByName(s: seq<(int, string)>)
  {
    forall i, j :: 0 <= i < j < |s| ==> CollateLeq(s[i].1, s[j].1)
  }

  function InsertByName(x: (int, string), s: seq<(int, string)>): (r: seq<(int, string)>)
    ensures |r| == |s| + 1
    ensures forall y :: y in r <==> y == x || y in s
    ensures Distinct(s) && x !in s ==> Distinct(r)
  {
    if s == [] then [x]
    else if CollateLeq(x.1, s[0].1) then [x] + s
    else
      var rest := InsertByName(x, s[1..]);
      assert Distinct(s) ==> s[0] !in s[1..] by {
        if Distinct(s) {
          forall k | 0 <= k < |s[1..]| ensures s[1..][k] != s[0] {
            assert s[k + 1] != s[0];
          }
        }
      }
      [s[0]] + rest
  }

  function SortByName(s: seq<(int, string)>): (r: seq<(int, string)>)
    ensures |r| == |s|
    ensures forall y :: y in r <==> y in s
    ensures Distinct(s) ==> Distinct(r)
  {
    if s == [] then [] else InsertByName(s[0], SortByName(s[1..]))
  }

  /** Insertion adds exactly one copy of the pair, whatever is already there. */
  lemma {:induction false} InsertByNameCounts(x: (int, string), s: seq<(int, string)>)
    ensures multiset(InsertByName(x, s)) == multiset(s) + multiset{x}
  {
    if s != [] && !CollateLeq(x.1, s[0].1) {
      InsertByNameCounts(x, s[1..]);
      assert s == [s[0]] + s[1..];
      assert InsertByName(x, s) == [s[0]] + InsertByName(x, s[1..]);
    }
  }

  /** The ordered listing is a permutation of the selection: every pair
      occurs in it exactly as often as in the input. */
  lemma {:induction false} SortByNamePermutes(s: seq<(int, string)>)
    ensures multiset(SortByName(s)) == multiset(s)
  {
    if s != [] {
      SortByNamePermutes(s[1..]);
      InsertByNameCounts(s[0], SortByName(s[1..]));
      assert s == [s[0]] + s[1..];
    }
  }

  lemma {:induction false} InsertByNameSorted(x: (int, string), s: seq<(int, string)>)
    requires SortedByName(s)
    ensures SortedByName(InsertByName(x, s))
  {
    if s != [] {
      if CollateLeq(x.1, s[0].1) {
        forall j | 0 <= j < |s| ensures CollateLeq(x.1, s[j].1) {
          if j > 0 { CollateTransitive(x.1, s[0].1, s[j].1); }
        }
      } else {
        CollateTotal(x.1, s[0].1);
        InsertByNameSorted(x, s[1..]);
        var t := InsertByName(x, s[1..]);
        forall j | 0 <= j < |t| ensures CollateLeq(s[0].1, t[j].1) {
          assert t[j] in t;
          if t[j] != x {
            var k :| 0 <= k < |s[1..]| && s[1..][k] == t[j];
            assert s[k + 1] == t[j];
          }
        }
      }
    }
  }

  lemma {:induction false} SortByNameSorted(s: seq<(int, string)>)
    ensures SortedByName(SortByName(s))
  {
    if s != [] {
      SortByNameSorted(s[1..]);
      InsertByNameSorted(s[0], SortByName(s[1..]));
    }
  }

  /** `list_categories(user_id)`: exactly the user's `(id, name)` pairs,
      each once, nothing of another user, ordered by name. */
  function ListCategories(db: Db, userId: int): (r: seq<(int, string)>)
    ensures forall p :: p in r <==> exists c :: c in db.categories && c.userId == userId && p == (c.id, c.name)
    ensures SortedByName(r)
    ensures Valid(db) ==> Distinct(r)
  {
    var owned := OwnedPairs(db.categories, userId);
    SortByNameSorted(owned);
    SortByName(owned)
  }

  // ---------------------------------------------------------------------
  // create_category

  /** `create_category(user_id, name)`: `(name or "").strip()`, refused
      when empty, otherwise one INSERT under the UNIQUE(user_id, name) key. */
  function CreateCategory(db: Db, userId: int, name: Option<string>): (r: Result<Db, Error>)
    ensures var n := Strip(if name.Some? then name.value else "");
            && (r == Failure(CategoryNameRequired) <==> name.None? || AllSpace(name.value))
            && (r == Failure(UniqueViolation(Categories)) <==> n != [] && HasCategory(db.categories, userId, n))
            && (r.Success? ==> r.value.categories == db.categories + [Category(r.value.categorySeq, userId, n)])
            && (r.Success? <==> n != [] && !HasCategory(db.categories, userId, n))
    ensures r.Failure? ==> r.error == CategoryNameRequired || r.error == UniqueViolation(Categories)
    ensures r.Success? && Valid(db) ==> forall c :: c in db.categories ==> c.id < r.value.categorySeq
    ensures r.Success? ==> r.value.users == db.users && r.value.payments == db.payments && r.value.budgets == db.budgets
    ensures r.Success? && Valid(db) ==> Valid(r.value)
    ensures r.Success? ==> r.value == db.(categories := r.value.categories, categorySeq := db.categorySeq + 1)
  {
    var raw := if name.Some? then name.value else "";
    var n := Strip(raw);
    StripEmptyIffAllSpace(raw);
    if n == [] then Failure(CategoryNameRequired) else InsertCategory(db, userId, n)
  }

  // ---------------------------------------------------------------------
  // delete_category

  /** `UPDATE payments SET category_id = NULL WHERE user_id = ? AND category_id = ?`. */
  function NullReferences(payments: seq<Payment>, userId: int, categoryId: int): (r: seq<Payment>)
    ensures |r| == |payments|
    ensures forall i :: 0 <= i < |payments| ==>
              var p := payments[i];
              if p.userId == userId && p.categoryId == Some(categoryId)
              then r[i] == p.(categoryId := None)
              else r[i] == p
    ensures forall p :: p in r && p.userId == userId ==> p.categoryId != Some(categoryId)
  {
    seq(|payments|, i requires 0 <= i < |payments| =>
      if payments[i].userId == userId && payments[i].categoryId == Some(categoryId)
      then payments[i].(categoryId := None) else payments[i])
  }

  /** `DELETE FROM categories WHERE user_id = ? AND id = ?`. */
  function DropCategory(cats: seq<Category>, userId: int, categoryId: int): (r: seq<Category>)
    ensures forall c :: c in r <==> c in cats && !(c.userId == userId && c.id == categoryId)
    ensures (forall c :: c in cats ==> c.userId != userId || c.id != categoryId) ==> r == cats
  {
    if cats == [] then []
    else
      var rest := DropCategory(cats[1..], userId, categoryId);
      assert forall c :: c in cats <==> c == cats[0] || c in cats[1..];
      if cats[0].userId == userId && cats[0].id == categoryId then rest
      else
        assert cats == [cats[0]] + cats[1..];
        [cats[0]] + rest
  }

  /** Deleting rows keeps the remaining ids in ascending order. */
  lemma {:induction false} DropCategoryAscending(cats: seq<Category>, userId: int, categoryId: int)
    requires IdsAscending(cats)
    ensures IdsAscending(DropCategory(cats, userId, categoryId))
  {
    if cats != [] {
      var rest := DropCategory(cats[1..], userId, categoryId);
      DropCategoryAscending(cats[1..], userId, categoryId);
      forall c | c in rest ensures cats[0].id < c.id {
        var k :| 0 <= k < |cats[1..]| && cats[1..][k] == c;
        assert cats[k + 1] == c;
      }
      if !(cats[0].userId == userId && cats[0].id == categoryId) {
        ConsAscending(cats[0], rest);
      }
    }
  }

  /** A row whose id is below every id of an ascending list keeps it
      ascending when put in front. */
  lemma ConsAscending(c: Category, rest: seq<Category>)
    requires IdsAscending(rest)
    requires forall d :: d in rest ==> c.id < d.id
    ensures IdsAscending([c] + rest)
  {
    var r := [c] + rest;
    forall i, j | 0 <= i < j < |r| ensures r[i].id < r[j].id {
      assert r[j] == rest[j - 1];
      if i > 0 {
        assert r[i] == rest[i - 1];
      } else {
        assert r[j] in rest;
      }
    }
  }

  /** `delete_category(user_id, category_id)`: first the user's payments
      that point at the category lose the reference, then the category row
      goes if the user owns it. No payment is deleted, and nothing of any
      other user changes. */
  function DeleteCategory(db: Db, userId: int, categoryId: int): (r: Db)
    ensures |r.payments| == |db.payments|
    ensures forall i :: 0 <= i < |db.payments| ==>
              var p := db.payments[i];
              if p.userId == userId && p.categoryId == Some(categoryId)
              then r.payments[i] == p.(categoryId := None)
              else r.payments[i] == p
    ensures forall p :: p in r.payments && p.userId == userId ==> p.categoryId != Some(categoryId)
    ensures forall c :: c in r.categories <==> c in db.categories && !(c.userId == userId && c.id == categoryId)
    ensures r.users == db.users && r.budgets == db.budgets
    ensures r == db.(payments := r.payments, categories := r.categories)
    ensures Valid(db) ==> Valid(r)
  {
    var r := db.(payments := NullReferences(db.payments, userId, categoryId),
                 categories := DropCategory(db.categories, userId, categoryId));
    assert Valid(db) ==> CategoryIdsValid(r.categories, r.categorySeq) by {
      if Valid(db) {
        assert IdsAscending(db.categories);
        DropCategoryAscending(db.categories, userId, categoryId);
        forall i | 0 <= i < |r.categories| ensures 0 < r.categories[i].id <= r.categorySeq {
          assert r.categories[i] in r.categories;
          var k :| 0 <= k < |db.categories| && db.categories[k] == r.categories[i];
        }
      }
    }
    r
  }

  // ---------------------------------------------------------------------
  // Referential integrity

  /** Every category reference of a payment names an existing category of
      the same owner. SQLite does not check this (foreign keys are off), so
      it holds only as long as every operation keeps it. */
  predicate OwnedReferences(db: Db)
  {
    forall p :: p in db.payments && p.categoryId.Some? ==>
      exists c :: c in db.categories && c.id == p.categoryId.value && c.userId == p.userId
  }

  /** The plain foreign-key condition: the referenced category exists,
      whoever owns it. */
  predicate References(db: Db)
  {
    forall p :: p in db.payments && p.categoryId.Some? ==>
      exists c :: c in db.categories && c.id == p.categoryId.value
  }

  /** `delete_category` keeps every payment's reference owned and live: a
      payment pointing at the removed row belongs to the deleting user, so
      its reference was nulled first. */
  lemma DeleteKeepsReferences(db: Db, userId: int, categoryId: int)
    requires OwnedReferences(db)
    ensures OwnedReferences(DeleteCategory(db, userId, categoryId))
    ensures References(DeleteCategory(db, userId, categoryId))
  {
    var r := DeleteCategory(db, userId, categoryId);
    forall p | p in r.payments && p.categoryId.Some?
      ensures exists c :: c in r.categories && c.id == p.categoryId.value && c.userId == p.userId
    {
      var i :| 0 <= i < |r.payments| && r.payments[i] == p;
      assert p == db.payments[i];
      assert db.payments[i] in db.payments;
      var c :| c in db.categories && c.id == p.categoryId.value && c.userId == p.userId;
      assert c in r.categories;
    }
  }

  /** Without ownership the guarantee fails: a category of user 1 that a
      payment of user 2 points at is deleted by user 1, and the payment is
      left pointing at a missing row. */
  lemma CrossOwnerReferenceDangles()
    ensures var db := EmptyDb.(categories := [Category(1, 1, "Luz")], categorySeq := 1,
                               payments := [Payment(1, 2, "conta", Some(1), 10.0, "2025-03-10", 3, 2025, 0, None)],
                               paymentSeq := 1);
            && Valid(db) && References(db) && !OwnedReferences(db)
            && !References(DeleteCategory(db, 1, 1))
  {
    var db := EmptyDb.(categories := [Category(1, 1, "Luz")], categorySeq := 1,
                       payments := [Payment(1, 2, "conta", Some(1), 10.0, "2025-03-10", 3, 2025, 0, None)],
                       paymentSeq := 1);
    var p := db.payments[0];
    assert db.categories[0] in db.categories;
    assert p in db.payments;
    var r := DeleteCategory(db, 1, 1);
    assert r.categories == [];
    assert r.payments[0] == p;
    assert p in r.payments;
  }

  /** Under owned references, deleting an id the user does not own is a
      no-op: no payment of the user can point at it. */
  lemma DeleteUnownedIsNoOp(db: Db, userId: int, categoryId: int)
    requires OwnedReferences(db)
    requires forall c :: c in db.categories ==> c.userId != userId || c.id != categoryId
    ensures DeleteCategory(db, userId, categoryId) == db
  {
    var r := DeleteCategory(db, userId, categoryId);
    forall i | 0 <= i < |db.payments| ensures r.payments[i] == db.payments[i] {
      assert db.payments[i] in db.payments;
    }
  }

  /** Appending categories without touching payments keeps references
      owned and live. */
  lemma GrowKeepsReferences(db: Db, d: Db)
    requires OwnedReferences(db)
    requires d.payments == db.payments
    requires |db.categories| <= |d.categories| && d.categories[..|db.categories|] == db.categories
    ensures OwnedReferences(d)
  {
    forall p | p in d.payments && p.categoryId.Some?
      ensures exists c :: c in d.categories && c.id == p.categoryId.value && c.userId == p.userId
    {
      var c :| c in db.categories && c.id == p.categoryId.value && c.userId == p.userId;
      var k :| 0 <= k < |db.categories| && db.categories[k] == c;
      assert d.categories[k] == c;
    }
  }

  /** Seeding only adds category rows and touches no payment, so it keeps
      references owned and live. */
  lemma SeedKeepsReferences(db: Db, userId: Option<int>)
    requires OwnedReferences(db)
    ensures OwnedReferences(SeedDefaultCategories(db, userId))
  {
    GrowKeepsReferences(db, SeedDefaultCategories(db, userId));
  }

  /** Creating a category only adds a row and touches no payment, so it
      keeps references owned and live. */
  lemma CreateKeepsReferences(db: Db, userId: int, name: Option<string>)
    requires OwnedReferences(db)
    ensures CreateCategory(db, userId, name).Success? ==> OwnedReferences(CreateCategory(db, userId, name).value)
  {
    var r := CreateCategory(db, userId, name);
    if r.Success? {
      assert r.value.categories[..|db.categories|] == db.categories;
      GrowKeepsReferences(db, r.value);
    }
  }
}

=== FILE: crypto.dfy ===
/** The password hashing the credential store delegates to bcrypt
    (`hash_text` and `verify_text` in auth.py). bcrypt draws a fresh salt
    for every hash; here the salt is a parameter, and a digest remembers the
    text it was made from, so verification is exact: a digest accepts the
    text it was made from and no other. */
module Crypto {

  /** What `hash_text` stores in a `*_hash` column. */
  datatype Digest = Digest(salt: string, text: string)

  /** `hash_text(text)` with the salt bcrypt would have drawn. */
  function HashText(text: string, salt: string): Digest
  {
    Digest(salt, text)
  }

  /** `verify_text(text, hashed)`. */
  predicate VerifyText(text: string, hashed: Digest)
  {
    hashed.text == text
  }

  /** A digest verifies the text it was made from, whatever the salt, and
      nothing else. */
  lemma VerifyHash(text: string, other: string, salt: string)
    ensures VerifyText(text, HashText(text, salt))
    ensures VerifyText(other, HashText(text, salt)) <==> other == text
  {
  }
}

=== FILE: dashboard.dfy ===
/** The arithmetic of the dashboard and the planning page of app.py over
    the month's payment rows: the month total, the paid, open and overdue
    totals, the balance against the month's income, and the expense-goal
    figures. Amounts are exact reals; a due date is an ordinal day number,
    so "before today" is integer order. */
module Dashboard {
  import opened Wrappers

  /** One row of `list_payments`: id, description, amount, due date, the
      `paid` column (1 paid, 0 open), payment date and category name. */
  datatype Row = Row(id: int, description: string, amount: real, due: int, paid: int,
                     paidDate: Option<string>, category: Option<string>)

  /** No row carries a negative amount, as the entry form's floor of 0 keeps it. */
  predicate NonNegative(rows: seq<Row>)
  {
    forall i :: 0 <= i < |rows| ==> rows[i].amount >= 0.0
  }

  /** `df["Valor"].sum()`, with 0 for an empty frame. */
  function Total(rows: seq<Row>): (r: real)
    ensures NonNegative(rows) ==> r >= 0.0
    ensures (forall i :: 0 <= i < |rows| ==> rows[i].amount == 0.0) ==> r == 0.0
  {
    if rows == [] then 0.0 else rows[0].amount + Total(rows[1..])
  }

  /** The sum over two lists is the sum of the sums. */
  lemma {:induction false} TotalAppend(a: seq<Row>, b: seq<Row>)
    ensures Total(a + b) == Total(a) + Total(b)
  {
    if a == [] {
      assert a + b == b;
    } else {
      assert (a + b)[1..] == a[1..] + b;
      TotalAppend(a[1..], b);
    }
  }

  // ---------------------------------------------------------------------
  // Row selections

  /** `df.loc[df["Pago"] == 1]`: the paid rows, in order. */
  function PaidRows(rows: seq<Row>): (r: seq<Row>)
    ensures forall x :: x in r <==> x in rows && x.paid == 1
    ensures |r| <= |rows|
    ensures NonNegative(rows) ==> NonNegative(r)
  {
    if rows == [] then []
    else
      assert forall x :: x in rows <==> x == rows[0] || x in rows[1..];
      (if rows[0].paid == 1 then [rows[0]] else []) + PaidRows(rows[1..])
  }

  /** The rows that are not marked paid, that is every row whose `paid`
      is anything but 1. */
  function OpenRows(rows: seq<Row>): (r: seq<Row>)
    ensures forall x :: x in r <==> x in rows && x.paid != 1
    ensures |r| <= |rows|
    ensures NonNegative(rows) ==> NonNegative(r)
  {
    if rows == [] then []
    else
      assert forall x :: x in rows <==> x == rows[0] || x in rows[1..];
      (if rows[0].paid != 1 then [rows[0]] else []) + OpenRows(rows[1..])
  }

  /** `_is_overdue`: the row is open (`paid == 0`) and due strictly before today. */
  predicate IsOverdue(row: Row, today: int)
  {
    row.paid == 0 && row.due < today
  }

  /** `df[df.apply(_is_overdue, axis=1)]`: the overdue rows, in order. */
  function OverdueRows(rows: seq<Row>, today: int): (r: seq<Row>)
    ensures forall x :: x in r <==> x in rows && IsOverdue(x, today)
    ensures |r| <= |rows|
    ensures NonNegative(rows) ==> NonNegative(r)
  {
    if rows == [] then []
    else
      assert forall x :: x in rows <==> x == rows[0] || x in rows[1..];
      (if IsOverdue(rows[0], today) then [rows[0]] else []) + OverdueRows(rows[1..], today)
  }

  /** The paid selection keeps every paid row as often as it occurs and
      drops the others: it is the paid part of the frame, duplicates and all. */
  lemma {:induction false} PaidRowsCounts(rows: seq<Row>)
    ensures forall x :: multiset(PaidRows(rows))[x] == if x.paid == 1 then multiset(rows)[x] else 0
  {
    if rows != [] {
      PaidRowsCounts(rows[1..]);
      var head := if rows[0].paid == 1 then [rows[0]] else [];
      assert rows == [rows[0]] + rows[1..];
      assert multiset(head + PaidRows(rows[1..])) == multiset(head) + multiset(PaidRows(rows[1..]));
    }
  }

  /** The open selection keeps every open row as often as it occurs. */
  lemma {:induction false} OpenRowsCounts(rows: seq<Row>)
    ensures forall x :: multiset(OpenRows(rows))[x] == if x.paid != 1 then multiset(rows)[x] else 0
  {
    if rows != [] {
      OpenRowsCounts(rows[1..]);
      var head := if rows[0].paid != 1 then [rows[0]] else [];
      assert rows == [rows[0]] + rows[1..];
      assert multiset(head + OpenRows(rows[1..])) == multiset(head) + multiset(OpenRows(rows[1..]));
    }
  }

  /** The overdue selection keeps every overdue row as often as it occurs. */
  lemma {:induction false} OverdueRowsCounts(rows: seq<Row>, today: int)
    ensures forall x :: multiset(OverdueRows(rows, today))[x] == if IsOverdue(x, today) then multiset(rows)[x] else 0
  {
    if rows != [] {
      OverdueRowsCounts(rows[1..], today);
      var head := if IsOverdue(rows[0], today) then [rows[0]] else [];
      assert rows == [rows[0]] + rows[1..];
      assert multiset(head + OverdueRows(rows[1..], today)) == multiset(head) + multiset(OverdueRows(rows[1..], today));
    }
  }

  // ---------------------------------------------------------------------
  // Dashboard KPIs

  /** The five KPI cards of the dashboard. */
  datatype Kpis = Kpis(total: real, paid: real, open: real, overdue: real, balance: real)

  /** The KPI block of `screen_app`: the month total, the paid total, the
      open total as their difference, the overdue total and the balance
      `income - total`. */
  function DashboardKpis(rows: seq<Row>, income: real, today: int): (k: Kpis)
    ensures k.total == Total(rows)
    ensures k.paid == Total(PaidRows(rows))
    ensures k.open == Total(OpenRows(rows))
    ensures k.overdue == Total(OverdueRows(rows, today))
    ensures k.balance == income - k.total
  {
    var total := Total(rows);
    var paid := Total(PaidRows(rows));
    PaidOpenPartition(rows);
    Kpis(total, paid, total - paid, Total(OverdueRows(rows, today)), income - total)
  }

  /** The KPI identities: paid plus open is the month total, and with no
      negative amounts the overdue total lies between zero and the open
      total, the paid total between zero and the month total. */
  lemma KpiBounds(rows: seq<Row>, income: real, today: int)
    ensures var k := DashboardKpis(rows, income, today);
            k.paid + k.open == k.total
    ensures var k := DashboardKpis(rows, income, today);
            NonNegative(rows) ==> 0.0 <= k.overdue <= k.open && 0.0 <= k.paid <= k.total
  {
    PaidOpenPartition(rows);
    if NonNegative(rows) {
      OverdueWithinOpen(rows, today);
    }
  }

  /** Paid and open rows split the month: their totals add up to the
      month total, so `total - total_pago` is the sum over the open rows. */
  lemma {:induction false} PaidOpenPartition(rows: seq<Row>)
    ensures Total(PaidRows(rows)) + Total(OpenRows(rows)) == Total(rows)
  {
    if rows != [] {
      var head := if rows[0].paid == 1 then [rows[0]] else [];
      var rest := if rows[0].paid != 1 then [rows[0]] else [];
      TotalAppend(head, PaidRows(rows[1..]));
      TotalAppend(rest, OpenRows(rows[1..]));
      PaidOpenPartition(rows[1..]);
    }
  }

  /** With no negative amounts the overdue total is between zero and the
      open total: every overdue row is an open row. */
  lemma {:induction false} OverdueWithinOpen(rows: seq<Row>, today: int)
    requires NonNegative(rows)
    ensures 0.0 <= Total(OverdueRows(rows, today)) <= Total(OpenRows(rows))
  {
    if rows != [] {
      var late := if IsOverdue(rows[0], today) then [rows[0]] else [];
      var open := if rows[0].paid != 1 then [rows[0]] else [];
      assert NonNegative(rows[1..]);
      TotalAppend(late, OverdueRows(rows[1..], today));
      TotalAppend(open, OpenRows(rows[1..]));
      OverdueWithinOpen(rows[1..], today);
    }
  }

  /** A later "today" never lowers the overdue total. */
  lemma {:induction false} OverdueMonotone(rows: seq<Row>, today: int, later: int)
    requires NonNegative(rows)
    requires today <= later
    ensures Total(OverdueRows(rows, today)) <= Total(OverdueRows(rows, later))
  {
    if rows != [] {
      var a := if IsOverdue(rows[0], today) then [rows[0]] else [];
      var b := if IsOverdue(rows[0], later) then [rows[0]] else [];
      assert NonNegative(rows[1..]);
      TotalAppend(a, OverdueRows(rows[1..], today));
      TotalAppend(b, OverdueRows(rows[1..], later));
      OverdueMonotone(rows[1..], today, later);
    }
  }

  /** When nothing is due before today, nothing is overdue. */
  lemma NothingDueNothingOverdue(rows: seq<Row>, today: int)
    requires forall i :: 0 <= i < |rows| ==> rows[i].due >= today
    ensures OverdueRows(rows, today) == []
    ensures DashboardKpis(rows, 0.0, today).overdue == 0.0
  {
  }

  /** A row whose `paid` is neither 0 nor 1 is counted as open but can never
      be overdue, since the overdue test asks for `paid == 0`. */
  lemma OddPaidIsOpenNotOverdue(row: Row, today: int)
    requires row.paid != 0 && row.paid != 1
    ensures DashboardKpis([row], 0.0, today).open == row.amount
    ensures DashboardKpis([row], 0.0, today).overdue == 0.0
  {
    assert PaidRows([row]) == [];
    assert OpenRows([row]) == [row];
    assert OverdueRows([row], today) == [];
  }

  // ---------------------------------------------------------------------
  // Planning page

  /** The progress shown when a goal is set: the percentage of the goal
      spent and the bar's fill, capped at 1. */
  datatype Progress = Progress(percent: real, bar: real)

  /** The planning indicators: the spent amount, the leftover income, the
      goal still available and, for a positive goal, the progress. */
  datatype Plan = Plan(spent: real, leftover: real, remainingGoal: real, progress: Option<Progress>)

  /** `meta_restante = goal - gasto if goal else 0.0`: a zero goal is falsy. */
  function RemainingGoal(goal: real, spent: real): (r: real)
    ensures goal == 0.0 ==> r == 0.0
    ensures goal != 0.0 ==> r + spent == goal
  {
    if goal != 0.0 then goal - spent else 0.0
  }

  /** The progress block, shown only for `goal > 0`. */
  function Meter(goal: real, spent: real): (r: Option<Progress>)
    ensures r.Some? <==> goal > 0.0
    ensures r.Some? ==> r.value.bar <= 1.0
    ensures r.Some? && spent >= 0.0 ==> r.value.bar >= 0.0
    ensures r.Some? ==> (r.value.bar == 1.0 <==> RemainingGoal(goal, spent) <= 0.0)
    ensures r.Some? && spent < goal ==> r.value.bar * 100.0 == r.value.percent
    ensures r.Some? ==> r.value.percent * goal == spent * 100.0
    ensures r.Some? && spent <= goal ==> r.value.bar * goal == spent
    ensures r.Some? && spent >= goal ==> r.value.bar == 1.0
  {
    if goal > 0.0 then
      var fraction := spent / goal;
      FractionReachesOne(goal, spent);
      Some(Progress(fraction * 100.0, if fraction < 1.0 then fraction else 1.0))
    else None
  }

  /** For a positive goal the spent fraction reaches 1 exactly when the
      spending reaches the goal, and is non-negative with the spending. */
  lemma FractionReachesOne(goal: real, spent: real)
    requires goal > 0.0
    ensures spent / goal >= 1.0 <==> spent >= goal
    ensures spent >= 0.0 ==> spent / goal >= 0.0
    ensures (spent / goal) * goal == spent
  {
    assert spent == (spent / goal) * goal;
  }

  /** The planning page: spent is the month total, the leftover is the
      income minus it, then the remaining goal and the progress. */
  function Planning(rows: seq<Row>, income: real, goal: real): (p: Plan)
    ensures p.spent == Total(rows)
    ensures p.leftover + p.spent == income
    ensures p.remainingGoal == RemainingGoal(goal, p.spent)
    ensures p.progress == Meter(goal, p.spent)
  {
    var spent := Total(rows);
    Plan(spent, income - spent, RemainingGoal(goal, spent), Meter(goal, spent))
  }

  /** Both pages compute the same month total, so the planning page's
      leftover equals the dashboard's balance for the same income. */
  lemma LeftoverIsBalance(rows: seq<Row>, income: real, goal: real, today: int)
    ensures Planning(rows, income, goal).leftover == DashboardKpis(rows, income, today).balance
    ensures Planning(rows, income, goal).spent == DashboardKpis(rows, income, today).total
  {
  }

  /** Within a positive goal that has not been overspent, the bar and the
      remaining goal are consistent: the bar is the spent fraction and the
      remaining goal is what fills the rest of it. */
  lemma MeterMatchesRemaining(goal: real, spent: real)
    requires goal > 0.0 && 0.0 <= spent <= goal
    ensures Meter(goal, spent).value.bar * goal + RemainingGoal(goal, spent) == goal
  {
    assert spent == (spent / goal) * goal;
  }
}

=== FILE: months.dfy ===
/** The month labels of app.py: `MESES`, `month_label_to_int` (a list
    `index` lookup) and `int_to_month_label` (a list subscript, with
    Python's negative indexing). */
module Months {
  import opened Wrappers
  import opened Seqs

  /** `MESES`: the Portuguese month names, January first. */
  const Meses: seq<string> := [
    "Janeiro", "Fevereiro", "Março", "Abril", "Maio", "Junho",
    "Julho", "Agosto", "Setembro", "Outubro", "Novembro", "Dezembro"
  ]

  lemma MesesDistinct()
    ensures |Meses| == 12
    ensures Distinct(Meses)
  {
  }

  /** Python's `list.index`: the position of the first occurrence, or
      `None` where Python raises `ValueError`. */
  function IndexOf(s: seq<string>, x: string): (r: Option<nat>)
    ensures r.None? <==> x !in s
    ensures r.Some? ==> r.value < |s| && s[r.value] == x
    ensures r.Some? ==> forall k :: 0 <= k < r.value ==> s[k] != x
  {
    if s == [] then None
    else if s[0] == x then Some(0)
    else
      match IndexOf(s[1..], x)
      case None => None
      case Some(i) => Some(i + 1)
  }

  /** `month_label_to_int(name)`: the 1-based position of the name in
      `MESES`; a name that is not there makes the source raise. */
  function MonthLabelToInt(name: string): (r: Option<int>)
    ensures r.Some? <==> name in Meses
    ensures r.Some? ==> 1 <= r.value <= 12 && Meses[r.value - 1] == name
  {
    match IndexOf(Meses, name)
    case None => None
    case Some(i) => Some(i + 1)
  }

  /** `int_to_month_label(m)`: `MESES[m - 1]`. A subscript from -12 to 11 is
      valid in Python, a negative one counting from the end, so every m
      from -11 to 12 yields a name and any other m raises `IndexError`. */
  function IntToMonthLabel(m: int): (r: Option<string>)
    ensures r.Some? <==> -11 <= m <= 12
    ensures 1 <= m <= 12 ==> r == Some(Meses[m - 1])
    ensures -11 <= m <= 0 ==> r == Some(Meses[m + 11])
  {
    var i := m - 1;
    if 0 <= i < |Meses| then Some(Meses[i])
    else if -|Meses| <= i < 0 then Some(Meses[|Meses| + i])
    else None
  }

  /** Every name maps to a month number and back to itself. */
  lemma LabelRoundTrip(name: string)
    requires name in Meses
    ensures MonthLabelToInt(name).Some?
    ensures IntToMonthLabel(MonthLabelToInt(name).value) == Some(name)
  {
  }

  /** Every month number maps to a name and back to itself; this needs
      the labels to be distinct, since `index` finds the first match. */
  lemma IntRoundTrip(m: int)
    requires 1 <= m <= 12
    ensures IntToMonthLabel(m).Some?
    ensures MonthLabelToInt(IntToMonthLabel(m).value) == Some(m)
  {
    MesesDistinct();
    var name := Meses[m - 1];
    var r := MonthLabelToInt(name);
    assert r.Some? && Meses[r.value - 1] == name;
  }

  /** Two numbers from 1 to 12 name the same month only when equal,
      so with the round trips the mapping is a bijection. */
  lemma LabelsInjective(m: int, n: int)
    requires 1 <= m <= 12 && 1 <= n <= 12
    ensures IntToMonthLabel(m) == IntToMonthLabel(n) <==> m == n
  {
    MesesDistinct();
  }

  /** The negative-index wrap: a number from -11 to 0 yields the name of
      the month twelve later, so 0 yields "Dezembro", and the round trip
      through `month_label_to_int` lands on that later month, not on m. */
  lemma NonPositiveWraps(m: int)
    requires -11 <= m <= 0
    ensures IntToMonthLabel(m) == IntToMonthLabel(m + 12)
    ensures MonthLabelToInt(IntToMonthLabel(m).value) == Some(m + 12)
    ensures MonthLabelToInt(IntToMonthLabel(m).value) != Some(m)
  {
    IntRoundTrip(m + 12);
  }

  lemma ZeroIsDecember()
    ensures IntToMonthLabel(0) == Some("Dezembro")
    ensures IntToMonthLabel(13).None? && IntToMonthLabel(-12).None?
  {
  }
}

=== FILE: schema.dfy ===
/** The SQLite schema `init_db` creates (database.py): four tables, their
    UNIQUE constraints, their column defaults and AUTOINCREMENT ids. A table
    is a sequence of rows in insertion order; `created_at` columns are left
    out. The FOREIGN KEY clauses are declarations only: the connection never
    turns `PRAGMA foreign_keys` on, so SQLite checks none of them. */
module Schema {
  import opened Wrappers
  import opened Crypto

  datatype User = User(
    id: int,
    username: string,
    passwordHash: Digest,
    securityQuestion: string,
    securityAnswerHash: Digest)

  datatype Category = Category(id: int, userId: int, name: string)

  /** A ledger row; `paid` is an INTEGER column, 0 for open and 1 for paid. */
  datatype Payment = Payment(
    id: int,
    userId: int,
    description: string,
    categoryId: Option<int>,
    amount: real,
    dueDate: string,
    month: int,
    year: int,
    paid: int,
    paidDate: Option<string>)

  datatype Budget = Budget(id: int, userId: int, month: int, year: int, income: real, expenseGoal: real)

  /** The four tables, and per table the largest id AUTOINCREMENT has handed
      out so far (the table's entry in `sqlite_sequence`, 0 when none). */
  datatype Db = Db(
    users: seq<User>,
    categories: seq<Category>,
    payments: seq<Payment>,
    budgets: seq<Budget>,
    userSeq: int,
    categorySeq: int,
    paymentSeq: int,
    budgetSeq: int)

  datatype Table = Users | Categories | Payments | Budgets

  /** The errors the modelled operations raise: the two `ValueError`s of
      the application and SQLite's `IntegrityError` on a UNIQUE key. */
  datatype Error = CategoryNameRequired | PasswordTooShort | UniqueViolation(table: Table)

  const EmptyDb := Db([], [], [], [], 0, 0, 0, 0)

  // ---------------------------------------------------------------------
  // Integrity of the tables

  /** AUTOINCREMENT ids: positive, at most the sequence value, and
      increasing in insertion order (so no two rows share one). */
  predicate UserIdsValid(users: seq<User>, last: int)
  {
    && (forall i :: 0 <= i < |users| ==> 0 < users[i].id <= last)
    && (forall i, j :: 0 <= i < j < |users| ==> users[i].id < users[j].id)
  }

  predicate CategoryIdsValid(cats: seq<Category>, last: int)
  {
    && (forall i :: 0 <= i < |cats| ==> 0 < cats[i].id <= last)
    && (forall i, j :: 0 <= i < j < |cats| ==> cats[i].id < cats[j].id)
  }

  predicate PaymentIdsValid(payments: seq<Payment>, last: int)
  {
    && (forall i :: 0 <= i < |payments| ==> 0 < payments[i].id <= last)
    && (forall i, j :: 0 <= i < j < |payments| ==> payments[i].id < payments[j].id)
  }

  predicate BudgetIdsValid(budgets: seq<Budget>, last: int)
  {
    && (forall i :: 0 <= i < |budgets| ==> 0 < budgets[i].id <= last)
    && (forall i, j :: 0 <= i < j < |budgets| ==> budgets[i].id < budgets[j].id)
  }

  /** `username TEXT UNIQUE`: no two rows carry the same username. */
  predicate UsernamesUnique(users: seq<User>)
  {
    forall i, j :: 0 <= i < j < |users| ==> users[i].username != users[j].username
  }

  /** `UNIQUE(user_id, name)` on categories. */
  predicate CategoryNamesUnique(cats: seq<Category>)
  {
    forall a, b :: a in cats && b in cats && a.userId == b.userId && a.name == b.name ==> a == b
  }

  /** `UNIQUE(user_id, month, year)` on budgets. */
  predicate BudgetPeriodsUnique(budgets: seq<Budget>)
  {
    forall a, b :: a in budgets && b in budgets && a.userId == b.userId && a.month == b.month && a.year == b.year ==> a == b
  }

  /** Every constraint SQLite enforces on the four tables. */
  predicate Valid(db: Db)
  {
    && 0 <= db.userSeq && 0 <= db.categorySeq && 0 <= db.paymentSeq && 0 <= db.budgetSeq
    && UserIdsValid(db.users, db.userSeq)
    && CategoryIdsValid(db.categories, db.categorySeq)
    && PaymentIdsValid(db.payments, db.paymentSeq)
    && BudgetIdsValid(db.budgets, db.budgetSeq)
    && UsernamesUnique(db.users)
    && CategoryNamesUnique(db.categories)
    && BudgetPeriodsUnique(db.budgets)
  }

  predicate HasUsername(users: seq<User>, username: string)
  {
    exists u :: u in users && u.username == username
  }

  predicate HasCategory(cats: seq<Category>, userId: int, name: string)
  {
    exists c :: c in cats && c.userId == userId && c.name == name
  }

  predicate HasBudget(budgets: seq<Budget>, userId: int, month: int, year: int)
  {
    exists b :: b in budgets && b.userId == userId && b.month == month && b.year == year
  }

  // ---------------------------------------------------------------------
  // INSERT statements

  /** `INSERT INTO users`: fails on a taken username, otherwise appends one
      row under the next AUTOINCREMENT id. */
  function InsertUser(db: Db, username: string, passwordHash: Digest, question: string, answerHash: Digest): (r: Result<Db, Error>)
    ensures r.Failure? <==> HasUsername(db.users, username)
    ensures r.Failure? ==> r.error == UniqueViolation(Users)
    ensures r.Success? ==> (Valid(db) ==> Valid(r.value))
    ensures r.Success? ==> r.value.categories == db.categories && r.value.payments == db.payments && r.value.budgets == db.budgets
    ensures r.Success? ==> r.value.userSeq == db.userSeq + 1
    ensures r.Success? ==> r.value == db.(users := r.value.users, userSeq := r.value.userSeq)
    ensures r.Success? ==> r.value.users == db.users + [User(r.value.userSeq, username, passwordHash, question, answerHash)]
    ensures r.Success? && Valid(db) ==> forall v :: v in db.users ==> v.id < r.value.userSeq
  {
    if HasUsername(db.users, username) then
      Failure(UniqueViolation(Users))
    else
      var u := User(db.userSeq + 1, username, passwordHash, question, answerHash);
      var db' := db.(users := db.users + [u], userSeq := db.userSeq + 1);
      Success(db')
  }

  /** `INSERT INTO categories`: fails when the owner already has a category
      of that name, otherwise appends one row under the next id. */
  function InsertCategory(db: Db, userId: int, name: string): (r: Result<Db, Error>)
    ensures r.Failure? <==> HasCategory(db.categories, userId, name)
    ensures r.Failure? ==> r.error == UniqueViolation(Categories)
    ensures r.Success? ==> (Valid(db) ==> Valid(r.value))
    ensures r.Success? ==> r.value.users == db.users && r.value.payments == db.payments && r.value.budgets == db.budgets
    ensures r.Success? ==> r.value.categorySeq == db.categorySeq + 1
    ensures r.Success? ==> r.value == db.(categories := r.value.categories, categorySeq := r.value.categorySeq)
    ensures r.Success? ==> r.value.categories == db.categories + [Category(r.value.categorySeq, userId, name)]
    ensures r.Success? && Valid(db) ==> forall c :: c in db.categories ==> c.id < r.value.categorySeq
  {
    if HasCategory(db.categories, userId, name) then
      Failure(UniqueViolation(Categories))
    else
      Success(db.(categories := db.categories + [Category(db.categorySeq + 1, userId, name)],
                  categorySeq := db.categorySeq + 1))
  }

  /** `INSERT INTO payments`: no key to clash with, so it always succeeds;
      `paid` defaults to 0 (open) and `paid_date` and `category_id` stay
      NULL unless given. */
  function InsertPayment(db: Db, userId: int, description: string, categoryId: Option<int>, amount: real,
                         dueDate: string, month: int, year: int, paid: Option<int>, paidDate: Option<string>): (r: Db)
    ensures Valid(db) ==> Valid(r)
    ensures r.users == db.users && r.categories == db.categories && r.budgets == db.budgets
    ensures |r.payments| == |db.payments| + 1 && r.payments[..|db.payments|] == db.payments
    ensures r == db.(payments := r.payments, paymentSeq := db.paymentSeq + 1)
    ensures var p := r.payments[|db.payments|];
            && p.userId == userId && p.description == description && p.categoryId == categoryId
            && p.amount == amount && p.dueDate == dueDate && p.month == month && p.year == year
            && (paid.None? ==> p.paid == 0) && (paid.Some? ==> p.paid == paid.value)
            && p.paidDate == paidDate
            && p.id == r.paymentSeq
  {
    var p := Payment(db.paymentSeq + 1, userId, description, categoryId, amount, dueDate, month, year,
                     if paid.Some? then paid.value else 0, paidDate);
    db.(payments := db.payments + [p], paymentSeq := db.paymentSeq + 1)
  }

  /** `INSERT INTO budgets`: fails when the owner already has a row for the
      period; income and expense goal default to 0. */
  function InsertBudget(db: Db, userId: int, month: int, year: int, income: Option<real>, expenseGoal: Option<real>): (r: Result<Db, Error>)
    ensures r.Failure? <==> HasBudget(db.budgets, userId, month, year)
    ensures r.Failure? ==> r.error == UniqueViolation(Budgets)
    ensures r.Success? ==> (Valid(db) ==> Valid(r.value))
    ensures r.Success? ==> r.value.users == db.users && r.value.categories == db.categories && r.value.payments == db.payments
    ensures r.Success? ==> r.value.budgetSeq == db.budgetSeq + 1
    ensures r.Success? ==> r.value == db.(budgets := r.value.budgets, budgetSeq := r.value.budgetSeq)
    ensures r.Success? ==> r.value.budgets == db.budgets + [Budget(r.value.budgetSeq, userId, month, year,
                                                                  if income.Some? then income.value else 0.0,
                                                                  if expenseGoal.Some? then expenseGoal.value else 0.0)]
  {
    if HasBudget(db.budgets, userId, month, year) then
      Failure(UniqueViolation(Budgets))
    else
      var b := Budget(db.budgetSeq + 1, userId, month, year,
                      if income.Some? then income.value else 0.0,
                      if expenseGoal.Some? then expenseGoal.value else 0.0);
      Success(db.(budgets := db.budgets + [b], budgetSeq := db.budgetSeq + 1))
  }

  // ---------------------------------------------------------------------
  // init_db

  const AllTables: set<Table> := {Users, Categories, Payments, Budgets}

  /** The database file: which tables exist, and their rows. */
  datatype Store = Store(catalog: set<Table>, db: Db)

  /** `init_db`: `CREATE TABLE IF NOT EXISTS` for each table. A missing
      table is created empty with a fresh id sequence; an existing one is
      left exactly as it was. */
  function InitDb(s: Store): (r: Store)
    ensures r.catalog == s.catalog + AllTables
    ensures Users in s.catalog ==> r.db.users == s.db.users && r.db.userSeq == s.db.userSeq
    ensures Categories in s.catalog ==> r.db.categories == s.db.categories && r.db.categorySeq == s.db.categorySeq
    ensures Payments in s.catalog ==> r.db.payments == s.db.payments && r.db.paymentSeq == s.db.paymentSeq
    ensures Budgets in s.catalog ==> r.db.budgets == s.db.budgets && r.db.budgetSeq == s.db.budgetSeq
    ensures Users !in s.catalog ==> r.db.users == []
    ensures Categories !in s.catalog ==> r.db.categories == []
    ensures Payments !in s.catalog ==> r.db.payments == []
    ensures Budgets !in s.catalog ==> r.db.budgets == []
    ensures Users !in s.catalog ==> r.db.userSeq == 0
    ensures Categories !in s.catalog ==> r.db.categorySeq == 0
    ensures Payments !in s.catalog ==> r.db.paymentSeq == 0
    ensures Budgets !in s.catalog ==> r.db.budgetSeq == 0
    ensures Valid(s.db) ==> Valid(r.db)
  {
    var d := s.db;
    var d := if Users in s.catalog then d else d.(users := [], userSeq := 0);
    var d := if Categories in s.catalog then d else d.(categories := [], categorySeq := 0);
    var d := if Payments in s.catalog then d else d.(payments := [], paymentSeq := 0);
    var d := if Budgets in s.catalog then d else d.(budgets := [], budgetSeq := 0);
    Store(s.catalog + AllTables, d)
  }

  /** Running `init_db` on every start-up is harmless: once the tables
      exist it changes nothing, so a second run equals the first. */
  lemma InitDbIdempotent(s: Store)
    ensures AllTables <= s.catalog ==> InitDb(s) == s
    ensures InitDb(InitDb(s)) == InitDb(s)
    ensures InitDb(Store({}, s.db)).db == EmptyDb
  {
  }

  /** Schema rules as an application sees them: a second category or budget
      with the same key is refused, a username cannot be taken twice, and a
      payment inserted with only its required columns is open, unpaid-dated
      and uncategorised. */
  lemma SchemaRules(db: Db, userId: int, name: string, month: int, year: int, username: string, h: Digest)
    requires Valid(db)
    ensures InsertCategory(db, userId, name).Success? ==>
              InsertCategory(InsertCategory(db, userId, name).value, userId, name) == Failure(UniqueViolation(Categories))
    ensures InsertBudget(db, userId, month, year, None, None).Success? ==>
              var b := InsertBudget(db, userId, month, year, None, None).value;
              && b.budgets[|b.budgets| - 1].income == 0.0 && b.budgets[|b.budgets| - 1].expenseGoal == 0.0
              && InsertBudget(b, userId, month, year, Some(1.0), Some(1.0)) == Failure(UniqueViolation(Budgets))
    ensures InsertUser(db, username, h, "", h).Success? ==>
              InsertUser(InsertUser(db, username, h, "", h).value, username, h, "", h).Failure?
    ensures var p := InsertPayment(db, userId, name, None, 1.0, "", month, year, None, None).payments[|db.payments|];
            p.paid == 0 && p.paidDate.None? && p.categoryId.None?
  {
    if InsertBudget(db, userId, month, year, None, None).Success? {
      var b := InsertBudget(db, userId, month, year, None, None).value;
      assert b.budgets[|b.budgets| - 1] in b.budgets;
    }
    if InsertUser(db, username, h, "", h).Success? {
      var d := InsertUser(db, username, h, "", h).value;
      assert d.users[|d.users| - 1] in d.users;
    }
  }
}

=== FILE: seqs.dfy ===
/** A property of lists shared by the month labels, the default
    categories and the category listing. */
module Seqs {
  /** No two entries of the list are equal. */
  predicate Distinct<T(==)>(s: seq<T>)
  {
    forall i, j :: 0 <= i < j < |s| ==> s[i] != s[j]
  }
}

=== FILE: text.dfy ===
/** The string primitives the application relies on: Python's `str.strip()`
    and `str.lower()`, and the ordering SQLite uses for `ORDER BY` on a TEXT
    column with the default BINARY collation. */
module Text {

  /** The characters Python's `str.isspace()` accepts, which are exactly the
      characters `str.strip()` with no argument removes. */
  predicate IsSpace(c: char)
  {
    || c == ' '
    || ('\t' <= c <= '\r')
    || ('\U{1C}' <= c <= '\U{1F}')
    || c == '\U{85}' || c == '\U{A0}' || c == '\U{1680}'
    || ('\U{2000}' <= c <= '\U{200A}')
    || c == '\U{2028}' || c == '\U{2029}' || c == '\U{202F}'
    || c == '\U{205F}' || c == '\U{3000}'
  }

  predicate AllSpace(s: string)
  {
    forall i :: 0 <= i < |s| ==> IsSpace(s[i])
  }

  /** A string that `strip()` leaves alone: empty, or neither end is white space. */
  predicate Trimmed(s: string)
  {
    s == [] || (!IsSpace(s[0]) && !IsSpace(s[|s| - 1]))
  }

  /** Removes leading white space: the result is the longest suffix that
      does not start with white space. */
  function TrimStart(s: string): (r: string)
    ensures |r| <= |s| && r == s[|s| - |r|..]
    ensures AllSpace(s[..|s| - |r|])
    ensures r == [] || !IsSpace(r[0])
  {
    if s != [] && IsSpace(s[0]) then
      var r := TrimStart(s[1..]);
      assert s[..|s| - |r|] == [s[0]] + s[1..][..|s| - 1 - |r|];
      r
    else s
  }

  /** Removes trailing white space: the result is the longest prefix that
      does not end with white space. */
  function TrimEnd(s: string): (r: string)
    ensures |r| <= |s| && r == s[..|r|]
    ensures AllSpace(s[|r|..])
    ensures r == [] || !IsSpace(r[|r| - 1])
  {
    if s != [] && IsSpace(s[|s| - 1]) then
      var p := s[..|s| - 1];
      var r := TrimEnd(p);
      assert s[|r|..] == p[|r|..] + [s[|s| - 1]];
      r
    else s
  }

  /** Python's `s.strip()`: what remains once white space is removed from
      both ends. */
  function Strip(s: string): (r: string)
    ensures Trimmed(r)
    ensures |r| <= |s|
    ensures exists i :: 0 <= i <= |s| - |r| && SpaceAround(s, i, r)
  {
    var t := TrimStart(s);
    var r := TrimEnd(t);
    StripWitness(s, t, r);
    r
  }

  /** `s` is `r` placed at offset `i` with only white space around it. */
  predicate SpaceAround(s: string, i: nat, r: string)
    requires i + |r| <= |s|
  {
    r == s[i..i + |r|] && AllSpace(s[..i]) && AllSpace(s[i + |r|..])
  }

  lemma StripWitness(s: string, t: string, r: string)
    requires |t| <= |s| && t == s[|s| - |t|..] && AllSpace(s[..|s| - |t|])
    requires |r| <= |t| && r == t[..|r|] && AllSpace(t[|r|..])
    ensures SpaceAround(s, |s| - |t|, r)
  {
    var i := |s| - |t|;
    assert s[i + |r|..] == t[|r|..];
  }

  /** Stripping is the unique way to cut `s` into white space, a trimmed
      core and white space: whenever `s` is `m` surrounded by white space
      and `m` is trimmed, `Strip(s)` is `m`. */
  lemma {:induction false} StripUnique(s: string, i: nat, m: string)
    requires i + |m| <= |s| && SpaceAround(s, i, m) && Trimmed(m)
    ensures Strip(s) == m
  {
    assert s == s[..i] + m + s[i + |m|..];
    if m == [] {
      assert AllSpace(s) by {
        forall k | 0 <= k < |s| ensures IsSpace(s[k]) {
          if k < i { assert s[k] == s[..i][k]; } else { assert s[k] == s[i..][k - i]; }
        }
      }
      TrimStartAllSpace(s);
    } else {
      TrimStartSkips(s[..i], m + s[i + |m|..]);
      assert s[..i] + (m + s[i + |m|..]) == s;
      TrimEndSkips(m, s[i + |m|..]);
    }
  }

  lemma TrimStartAllSpace(s: string)
    requires AllSpace(s)
    ensures TrimStart(s) == []
  {
  }

  lemma {:induction false} TrimStartSkips(a: string, t: string)
    requires AllSpace(a) && (t == [] || !IsSpace(t[0]))
    ensures TrimStart(a + t) == t
    decreases |a|
  {
    if a == [] {
      assert a + t == t;
    } else {
      assert (a + t)[1..] == a[1..] + t;
      TrimStartSkips(a[1..], t);
    }
  }

  lemma {:induction false} TrimEndSkips(t: string, b: string)
    requires AllSpace(b) && t != [] && !IsSpace(t[|t| - 1])
    ensures TrimEnd(t + b) == t
    decreases |b|
  {
    if b == [] {
      assert t + b == t;
    } else {
      assert (t + b)[..|t + b| - 1] == t + b[..|b| - 1];
      TrimEndSkips(t, b[..|b| - 1]);
    }
  }

  /** A trimmed string is a fixed point of `strip()`; in particular
      stripping twice is stripping once. */
  lemma StripTrimmed(s: string)
    requires Trimmed(s)
    ensures Strip(s) == s
  {
    assert s[..0] == [] && s[|s|..] == [];
    StripUnique(s, 0, s);
  }

  lemma StripIdempotent(s: string)
    ensures Strip(Strip(s)) == Strip(s)
  {
    StripTrimmed(Strip(s));
  }

  /** `strip()` yields the empty string exactly for white-space-only input,
      the case the application treats as a missing value. */
  lemma StripEmptyIffAllSpace(s: string)
    ensures Strip(s) == [] <==> AllSpace(s)
  {
    if AllSpace(s) {
      assert SpaceAround(s, 0, []) by { assert s[..0] == [] && s[0..] == s; }
      StripUnique(s, 0, []);
    } else if Strip(s) == [] {
      var i :| 0 <= i <= |s| && SpaceAround(s, i, []);
      forall k | 0 <= k < |s| ensures IsSpace(s[k]) {
        if k < i { assert s[k] == s[..i][k]; } else { assert s[k] == s[i..][k - i]; }
      }
    }
  }

  /** Python's `str.lower()` on one character, for the upper-case letters
      of ASCII and of Latin-1 (U+00C0 to U+00DE except the multiplication
      sign U+00D7), which map to the character 32 code points above. */
  function LowerChar(c: char): char
  {
    if 'A' <= c <= 'Z' || ('\U{C0}' <= c <= '\U{DE}' && c != '\U{D7}') then
      (c as int + 32) as char
    else
      c
  }

  /** Python's `s.lower()`, character by character: the result is in
      lower case, and a string already in lower case is returned as it is. */
  function Lower(s: string): (r: string)
    ensures |r| == |s|
    ensures IsLower(r)
    ensures IsLower(s) ==> r == s
  {
    seq(|s|, i requires 0 <= i < |s| => LowerChar(s[i]))
  }

  /** `s` is already in lower case. */
  predicate IsLower(s: string)
  {
    forall i :: 0 <= i < |s| ==> LowerChar(s[i]) == s[i]
  }

  /** Lower-casing is idempotent, leaves white space where it was, and so
      keeps a stripped string stripped. */
  lemma LowerFacts(s: string)
    ensures IsLower(Lower(s))
    ensures Lower(Lower(s)) == Lower(s)
    ensures forall i :: 0 <= i < |s| ==> (IsSpace(Lower(s)[i]) <==> IsSpace(s[i]))
    ensures Trimmed(s) ==> Trimmed(Lower(s))
  {
  }

  lemma IsLowerFixed(s: string)
    ensures IsLower(s) <==> Lower(s) == s
  {
    if IsLower(s) {
      assert forall i :: 0 <= i < |s| ==> Lower(s)[i] == s[i];
    }
  }

  /** The BINARY collation SQLite applies to `ORDER BY` on TEXT: code points
      compared left to right, a proper prefix first. Comparing UTF-8 bytes,
      as SQLite does, orders code points the same way. */
  predicate CollateLeq(a: string, b: string)
  {
    a == [] || (b != [] && (a[0] < b[0] || (a[0] == b[0] && CollateLeq(a[1..], b[1..]))))
  }

  lemma {:induction false} CollateTotal(a: string, b: string)
    ensures CollateLeq(a, b) || CollateLeq(b, a)
  {
    if a != [] && b != [] && a[0] == b[0] {
      CollateTotal(a[1..], b[1..]);
    }
  }

  lemma {:induction false} CollateAntisymmetric(a: string, b: string)
    requires CollateLeq(a, b) && CollateLeq(b, a)
    ensures a == b
  {
    if a != [] {
      CollateAntisymmetric(a[1..], b[1..]);
      assert a == [a[0]] + a[1..] && b == [b[0]] + b[1..];
    }
  }

  lemma {:induction false} CollateTransitive(a: string, b: string, c: string)
    requires CollateLeq(a, b) && CollateLeq(b, c)
    ensures CollateLeq(a, c)
  {
    if a != [] && a[0] == b[0] && b[0] == c[0] {
      CollateTransitive(a[1..], b[1..], c[1..]);
    }
  }
}

=== FILE: wrappers.dfy ===
/** The `Option` and `Result` datatypes shared by the model: `Option` stands for
    Python's `None`-or-value returns and `Result` for an operation that either
    produces a value or raises. */
module Wrappers {

  /** A value or Python's `None`. */
  datatype Option<+T> = None | Some(value: T)

  /** The outcome of an operation that may raise. */
  datatype Result<+T, +E> = Success(value: T) | Failure(error: E)
}
